=== FILE: README.md ===
# MRGen reporter core, modelled in Dafny

MRGen collects Watchman Monitoring data about customers' computers and
produces usage reports. This project models the logic in its core that can
be stated precisely:

- **Report requests** (`ReportLCView.post`). The customer id, the start
  date and the end date are each checked. Every failure goes into a
  per-field error map. A bare `Report` row is created only when that map
  is empty. Module `ReportView`.
- **Schedule requests** (`PeriodicTaskField.to_internal_value`). There are
  two copies:
  - The current copy checks the customer, then the task type, then the
    service id, then the five cron fields, then whether the task name is
    already taken. It maps `watchman` or `repairshopr` to a Celery task path
    and its arguments. Modules `ScheduleSerializer` and `Cron`.
  - The earlier copy in the first `reporter` app does none of the
    service-id or cron checks. Module `LegacyScheduleSerializer`.
- **Watchman updates**:
  - the number of computer pages to request;
  - joining the returned pages into one list;
  - reconciling plugin results with the stored warnings (`parse_warnings`).
  
  Modules `TasksWatchman` (`reporter/tasks_watchman.py`) and `Tasks`
  (`reporter/tasks.py`).
- **Report summary filters**. One sums the resolved-warning counts of a
  report's sub-reports. The other looks up the single sub-report that ends
  on the report's end date. Module `ReportFilters`.
- **Pagination** settings and response metadata. Module `Pagination`.

Shared vocabulary lives in `Basics`: `Option`, `Result`, dates compared
lexicographically on (year, month, day), integer ceiling division and list
concatenation. The database rows are in `Models`. Their floating-point
hardware columns are dropped.

Inputs the program gets from its environment are parameters here:
- the outcome of parsing a date with `%Y-%m-%d` is an `Option<Date>`;
- "now" and "today" are `Date` arguments;
- the customer, crontab, periodic-task and warning tables are in-memory
  maps, sets and sequences passed in and returned.

Reports are not generated by calendar month anywhere in the modelled code:
the report view only inserts a bare `Report` row, and that is what the
model does. The report view's date-order check runs only when the start
date drew no error at all. So a start date in the future skips it as well,
not only one that failed to parse (`ReportView.FutureStartSkipsOrdering`).
The error texts are the code's own.

## Model

| member | source | states |
|---|---|---|
| ReportView.StartDateError | backend/reporter/views/view_report.py:20-27 | The start date draws an error exactly when it failed to parse or is strictly after today. It is a format error exactly when parsing failed, and the "after current date" error exactly when it parsed to a day after today. |
| ReportView.EndDateError | backend/reporter/views/view_report.py:28-38 | The end date draws a format error iff it failed to parse and a future-date error iff it is after today. The future check takes precedence over the ordering check. End-before-start is reported only when the start date drew no error. Equal dates are accepted. |
| ReportView.Validate | backend/reporter/views/view_report.py:13-38 | The error map has a `customer` entry iff the id is not in the customer table. Its `start_date` and `end_date` entries are exactly the two date errors. Every check runs whatever the earlier ones found. |
| ReportView.Post | backend/reporter/views/view_report.py:9-45 | A request is created (201) iff the customer exists, both dates parsed, neither is after today, and the end is not before the start. Then exactly one report with that customer and those dates, generated today, with all five counters at 0, is appended. Otherwise the answer is 400 with the non-empty error map, and the report table is unchanged. |
| ReportView.DateErrorsIgnoreCustomer | backend/reporter/views/view_report.py:14-38 | The date entries of the error map are the same whether or not the customer exists, so validation of the other fields proceeds after a customer error. |
| ReportView.TodayAccepted | backend/reporter/views/view_report.py:21-36 | A start date equal to today and an end date equal to the start are accepted. |
| ReportView.ErrorsAccumulate | backend/reporter/views/view_report.py:14-38 | One request can carry `customer`, `start_date` and `end_date` errors at once. |
| ReportView.FutureStartSkipsOrdering | backend/reporter/views/view_report.py:34-36 | When the start date is in the future, an end date before it that is not itself in the future draws no error. |
| Cron.MinuteRange | backend/reporter/serializers/serializer_schedule.py:48 | The minute expression accepts exactly `*` and the decimals 0 to 59 written without a leading zero. |
| Cron.HourRange | backend/reporter/serializers/serializer_schedule.py:49 | The hour expression accepts exactly `*` and 0 to 23 without a leading zero. |
| Cron.DayOfWeekRange | backend/reporter/serializers/serializer_schedule.py:50 | The day-of-week expression accepts exactly `*` and 0 to 6. |
| Cron.DayOfMonthRange | backend/reporter/serializers/serializer_schedule.py:51 | The day-of-month expression accepts exactly `*` and 1 to 31 without a leading zero. |
| Cron.MonthRange | backend/reporter/serializers/serializer_schedule.py:52 | The month expression accepts exactly `*` and 1 to 12 without a leading zero. |
| Cron.ValidCrontabRanges | backend/reporter/serializers/serializer_schedule.py:48-53 | A crontab passes the cron check iff each field is `*` or a canonical numeral in its range. |
| Cron.MinuteExamples | backend/reporter/tests/test_schedule.py:485-509 | Minute `61` and minute `05` are refused; `0`, `59` and `*` are accepted. |
| Models.ParseTaskType | backend/reporter/serializers/serializer_schedule.py:32-39 | Only `watchman` and `repairshopr` name a task kind, and the kind named reads back as the same string. |
| ScheduleSerializer.ToInternalValue | backend/reporter/serializers/serializer_schedule.py:23-64 | The checks run in order, and the first failure is the answer. A missing customer key gives the "required" error and an unknown id the "valid customer id" error. An unknown task type, or a null id on the chosen service, gives a `task_type` error. Invalid cron fields give the `periodic_tas` error. A taken name gives the duplicate error. The crontab store gains the submitted crontab exactly when the cron check passes, including when the name then turns out to be taken; otherwise it is unchanged. On success the task is named customer name, space, task type. It runs the service's update task with the customer's id on that service as its only argument. |
| ScheduleSerializer.AcceptsWellFormed | backend/reporter/serializers/serializer_schedule.py:32-64 | A known customer with an id on the chosen service, valid cron fields and an unused name is accepted. The task maps `watchman` to `reporter.tasks_watchman.update_client` with the Watchman group id, and `repairshopr` to `reporter.tasks_repairshopr.update_client` with the RepairShopr id. |
| ScheduleSerializer.UnknownTaskTypeCreatesNothing | backend/reporter/serializers/serializer_schedule.py:32-39 | For a known customer, any other task type is refused with a `task_type` error and leaves the crontab store unchanged. |
| ScheduleSerializer.Minute61Refused | backend/reporter/serializers/serializer_schedule.py:48-53 | Minute `61` is refused under `periodic_tas`, and no crontab is stored. |
| LegacyScheduleSerializer.ToInternalValue | reporter/serializers/serializer_schedule.py:21-48 | A missing customer key gives the "required" error (code 400) and an unknown id the "valid customer id" error (code 404); in both cases nothing is stored, whatever the task type. For a known customer the submitted crontab is stored unvalidated, before the duplicate check, so it is stored even when that check refuses. A taken name is refused, whatever the task type. Otherwise the task links to that crontab, is named customer name, space, task type, and runs the mapped update task with the service id as its argument. |
| LegacyScheduleSerializer.DuplicateBeforeTaskType | reporter/serializers/serializer_schedule.py:30-42 | An unknown task type with a taken name draws the duplicate error, and the crontab has already been stored. |
| LegacyScheduleSerializer.AgreesWithCurrent | reporter/serializers/serializer_schedule.py:21-48 | Whenever the current copy accepts a request, the earlier copy accepts it too. It builds the same task and stores the same crontab. |
| LegacyScheduleSerializer.NullServiceIdAccepted | reporter/serializers/serializer_schedule.py:37-42 | The earlier copy does not refuse a null service id; the task gets a null argument. |
| TasksWatchman.DetermineComputerRequestNum | reporter/tasks_watchman.py:63-71 | The page count n covers every visible computer (n·per_page ≥ visible). One page fewer would not ((n−1)·per_page < visible). Zero computers need zero pages. |
| TasksWatchman.CombineComputerResults | reporter/tasks_watchman.py:127-142 | The computers gathered page by page are exactly the pages joined in order (the recursive definition `Flatten`), and there are as many as all pages hold together. |
| TasksWatchman.FindOpen | reporter/tasks_watchman.py:163-169 | The lookup finds an open warning for (group, computer, plugin uid) exactly when one exists, and what it finds is one. |
| TasksWatchman.Step | reporter/tasks_watchman.py:159-186 | OK resolves the open warning for the key, setting its resolved and last-checked dates to now. Any other status only refreshes an open warning's last-checked date. WARNING with no open warning appends exactly one new open warning with the plugin's uid, name and details, dated now; this is the intended behaviour (see Findings). Any other status with no open warning leaves the store unchanged. Other keys and other rows are untouched, and at most one open warning per key is kept. |
| TasksWatchman.StepAsWritten | reporter/tasks_watchman.py:175-181 | As written, the step fails exactly when it would create a warning (WARNING with no open one), because the computer column is given the uid string. Otherwise it agrees with `Step` and adds no row. |
| TasksWatchman.AsWrittenNeverCreates | reporter/tasks_watchman.py:175-181 | As written no step ever adds a row. A WARNING for a key with no open warning fails, while the intended `Step` opens one; the first WARNING on an empty store already shows it. |
| TasksWatchman.ParsePlugins | reporter/tasks_watchman.py:157-186 | Reconciling a computer's plugin results in order, with the intended step (`Step`; see Findings), keeps at most one open warning per key and deletes nothing. It changes no row's identity and touches no resolved row. Every changed row was checked now, every row it resolves is resolved now, and it adds at most one row per plugin. As written, a run adds no row and stops at the first WARNING for a key with no open warning. |
| TasksWatchman.ParseWarnings | reporter/tasks_watchman.py:146-186 | Across all computers, with the intended step (see Findings), the same guarantees hold: at most one open warning per key, no deletion, no identity change, resolved rows frozen, changed rows checked now, rows resolved now, and new rows reported now. As written, a run adds no row and stops at the first WARNING for a key with no open warning. |
| TasksWatchman.LastWith | reporter/tasks_watchman.py:159-160 | The last plugin result with a given uid is a result with that uid, and no later result has it. There is none exactly when no result has the uid. |
| TasksWatchman.StepUntouched | reporter/tasks_watchman.py:163-186 | A step for one key leaves every other key's rows, and whether it has an open warning, unchanged, and adds no row for it. |
| TasksWatchman.ParsePluginsOutcome | reporter/tasks_watchman.py:157-186 | After one computer's batch, a key the batch does not report is left alone. When the last result for the key is OK or WARNING, it decides: OK leaves no open warning and WARNING leaves one. Nothing is stated when the last result has another status. |
| TasksWatchman.ParseWarningsOutcome | reporter/tasks_watchman.py:155-186 | After the whole run, a key no computer reports is left alone. When the last result reported for it is OK or WARNING, it decides: OK leaves no open warning and WARNING leaves one. Nothing is stated when the last result has another status. |
| TasksWatchman.UpdateClientPageCounts | reporter/tasks_watchman.py:33-36 | At 100 computers per page, 0, 100, 101 and 250 visible computers need 0, 1, 2 and 3 requests. |
| TasksWatchman.StatusCaseInsensitive | reporter/tasks_watchman.py:161 | Two statuses that upper-case alike reconcile identically. |
| TasksWatchman.LowerCaseStatuses | reporter/tasks_watchman.py:161 | `ok` reads as `OK` and `warning` as `WARNING`. |
| TasksWatchman.RepeatCreatesNothing | reporter/tasks_watchman.py:172-181 | Reporting the same plugin result twice in a row creates a warning at most once. |
| TasksWatchman.ResolvedWarningsFrozen | reporter/tasks_watchman.py:163-186 | A warning that is already resolved is still present and unchanged after any batch of results. |
| Tasks.DetermineComputerRequestNum | reporter/tasks.py:86-88 | The page count covers every visible computer, one page fewer would not, and it is zero exactly when there are no visible computers. |
| Tasks.RequestNumIsLeast | reporter/tasks.py:86-88 | No smaller page count covers all visible computers. |
| Tasks.CombineWatchmanComputerResults | reporter/tasks.py:102-107 | The results gathered page by page are exactly the pages joined in order (`Flatten`), and there are as many as all pages hold together. |
| Basics.CeilDiv | reporter/tasks_watchman.py:71 | The quotient rounded up is the least count whose multiple of the divisor reaches the dividend. |
| Basics.CeilDivUnique | backend/MRGen/pagination.py:14 | Any count meeting both ceiling bounds is the ceiling, so the two bounds determine the page count. |
| Basics.FlattenAppend | reporter/tasks_watchman.py:136-138 | Joining pages distributes over splitting the list of pages, and so do the lengths. |
| Basics.ConcatPages | reporter/tasks.py:104-106 | The page-by-page loop computes the concatenation of all pages, and its length is the sum of the page lengths. |
| Basics.FlattenLength | reporter/tasks.py:104-106 | The joined pages are exactly as long as all pages together. |
| Basics.FlattenPart | reporter/tasks_watchman.py:136-138 | In the joined pages, page i appears whole, starting right after the pages before it, so no computer is lost, reordered or moved across pages. |
| ReportFilters.CountResolvedWarnings | backend/reporter/templatetags/report_filters.py:15-23 | The loop's total is the sum of `num_warnings_resolved` over all sub-reports, and it is 0 when there are none. |
| ReportFilters.SumResolvedAppend | backend/reporter/templatetags/report_filters.py:21-22 | Adding one sub-report raises the resolved count by exactly its `num_warnings_resolved`. |
| ReportFilters.SumResolvedSwap | backend/reporter/templatetags/report_filters.py:20-22 | Swapping two adjacent sub-reports leaves the resolved count unchanged. |
| ReportFilters.SumResolvedConcat | backend/reporter/templatetags/report_filters.py:20-22 | The resolved count of two runs of sub-reports joined is the sum of their counts. |
| ReportFilters.SumResolvedPermutation | backend/reporter/templatetags/report_filters.py:20-22 | The resolved count does not depend on the order of the sub-reports: any two sequences holding the same sub-reports give the same count. |
| ReportFilters.CountUnresolvedWarnings | backend/reporter/templatetags/report_filters.py:7-12 | If exactly one sub-report ends on the report's end date, the result is its `num_warnings_unresolved_end`. If none does, the lookup fails with does-not-exist. If two or more do, it fails with multiple-objects-returned. |
| Pagination.EffectivePageSize | backend/MRGen/pagination.py:8-10 | The page size lies between 1 and 100. It is 10 unless the `page_size` query parameter asks for a positive size, which is used capped at 100. |
| Pagination.PageSizeStable | backend/MRGen/pagination.py:8-10 | Requesting the size a request was given yields that size again, and query parameters other than `page_size` do not change it. |
| Pagination.GetPaginatedResponse | backend/MRGen/pagination.py:12-24 | page_count·per_page ≥ count. For a non-zero count, one page fewer does not reach it. A count of 0 gives 0 pages. The response echoes the data, the count, the page number and the page size. |
| Pagination.EveryResultOnCountedPage | backend/MRGen/pagination.py:14 | Every result's page number lies between 1 and the page count. |
| Pagination.TwoResultsPerOne | backend/reporter/tests/test_schedule.py:149-161 | Two results at one per page give page_count 2, page_size 1, results_count 2 and page 1. |
| Basics.DateTrichotomy | backend/reporter/views/view_report.py:35 | Lexicographic date order is a strict total order (trichotomous, asymmetric, irreflexive and transitive), so "not before" is "after or equal". |

## Left out

- Report generation by calendar month is absent from the modelled source.
  That covers buckets, warning and OS counters, and sub-report and
  computer-report rows. `ReportLCView.post` inserts only a bare `Report`.
  The sub-report columns the filters read are modelled only as the filters'
  input (`ReportFilters.SubReport`).
- HTTP calls and Celery orchestration are not modelled. That covers
  `update_client`, `get_group`, `get_computers`,
  `queue_computers_requests`, the `get_watchman_*`, `watchman_update_client`
  and `queue_watchman_computers_requests` tasks, and the asynchronous hand-off of the combined
  pages to `parse_warnings` in `combine_computer_results`. These are network
  I/O and task scheduling.
- Date parsing with `strptime`, and the clock (`datetime.now()`), are
  inputs. Library behaviour is not modelled. The model takes a single
  reading of the clock per request (`today`) and per reconciliation run
  (`now`). The program reads it at every use: view_report.py lines 24 and
  32, tasks_watchman.py lines 173 and 185, and the columns filled on
  creation. So the program's resolved and last-checked dates, or its two
  date checks, can fall on different days across midnight; the model's
  cannot.
- The texts of the library's messages are not modelled: the customer
  lookup's "does not exist" text and the date parser's format error. They
  appear as the constructors `CustomerDoesNotExist` and `BadDateFormat`.
- Saving the periodic task and creating the `Schedule` row
  (`ScheduleSerializer.create`) are not modelled. The framework also wraps
  a field's error under the field's name; that is not modelled either.
- The crontab table's timezone column is not modelled.
- Floating-point hardware columns of computers are not modelled.
  `Models.WatchmanComputer` is declared for completeness, but no modelled
  operation reads it.
- Pagination's next/previous links and the page lookup itself are not
  modelled. That includes the framework answering 404 for a page out of
  range.
- The customer views, schedule views and report serializers are CRUD
  wrappers and are not modelled. So are the URL tables, admin, migrations,
  both front ends and the tests.
- ReportView.Post: the customer id is a `nat` by type. An id sent as a
  numeric string, as a form post sends it, is looked up as that number and
  is covered. A null id finds no customer and gets the ordinary customer
  error, the model's unknown-id case. Not modelled: a request without a
  `customer` key raises a key error, and an id that is neither an integer
  nor a numeric string raises a value error in the lookup. The view catches
  neither, so the request ends without an answer.
- ReportView.Post: a request without a `start_date` or `end_date` key
  raises a key error, and a date value that is not a string raises a type
  error. The view catches only value errors, so both end the request
  without an answer. The model's date inputs are only "parsed to this day"
  or "did not parse", and the latter gives the 400 format error.
- ScheduleSerializer.ToInternalValue: the task type and cron fields are
  typed as present strings, so a missing or non-string field is not
  modelled. Each read fails only on the path that reaches it. `task_type`
  is first read once the customer is known (line 32). So without it, a
  missing or unknown customer still gets its customer error, and only a
  known customer's request raises a key error. `periodic_task` and its
  cron values are first read once the task-type and service-id checks have
  passed (line 48). So a missing `periodic_task`, or a cron value the
  check reaches that is missing or not a string, raises only there; every
  earlier error is answered as modelled.
- ScheduleSerializer.ToInternalValue: the customer id is a `nat` by type.
  A numeric string is looked up as that number. An id that is neither an
  integer nor a numeric string makes the lookup raise a value error, which
  is not caught; that failure is not modelled.
- ScheduleSerializer.ToInternalValue: a JSON null customer reaches the
  lookup and gets the "valid customer id" error. The model's `None` stands
  only for a missing key ("required"), so the null case is not modelled.
- LegacyScheduleSerializer.ToInternalValue: the same two customer cases as
  the current copy are not modelled: an id that is neither an integer nor
  a numeric string raises a value error, and a null id gets the "valid
  customer id" error.
- LegacyScheduleSerializer.ToInternalValue: the earlier copy reads
  `task_type` unguarded while building the name (line 30), and
  `periodic_task` when storing the crontab (line 32). Both reads come after
  the customer lookup. So a request without them still gets the
  "required" or "valid customer id" error when the customer is missing or
  unknown, and only a known customer's request raises a key error. Both
  fields are present by type, so that failure is not modelled.
- LegacyScheduleSerializer.ToInternalValue: requires the task type to be
  `watchman` or `repairshopr` on the one path that reads it, for a known
  customer and an unused name. There, any other value leaves the task path
  unbound and the program fails. Every earlier answer is modelled for any
  task type.
- TasksWatchman.ParseWarnings: requires every computer's group to belong to
  a customer, because the program's customer lookup fails otherwise. It
  also requires at most one open warning per key, because the program's
  single-row lookup fails otherwise. The second requirement is proved to
  be preserved.
- TasksWatchman.Step: status upper-casing covers ASCII letters only;
  Python's full Unicode `str.upper` is not modelled.
- TasksWatchman.Step: models the intended creation of a warning, not the
  failure of the code as written. `TasksWatchman.StepAsWritten` models the
  failure; see Findings. A failure part-way through a run keeps the rows
  saved before it, and that is not modelled.
- TasksWatchman.DetermineComputerRequestNum: integer ceiling division
  stands for `math.ceil` over float division. The two agree while the count
  is exactly representable as a float (below 2^53).
- Tasks.DetermineComputerRequestNum: integer ceiling, as above.
- Pagination.GetPaginatedResponse: integer ceiling, as above.
- Pagination.EffectivePageSize: the page-size choice is the web framework's
  reading of the `page_size`, `page_size_query_param` and `max_page_size`
  settings. The query parameters arrive already read as integers; a
  `page_size` that is not an integer is modelled as absent, which gives the
  same default the framework falls back to.

## Findings

| source | as written | input that shows it | evidently intended | confidence | as-written member | corrected member |
|---|---|---|---|---|---|---|
| reporter/tasks_watchman.py:177-181 | A new warning is built with `computer_id=computer_id`, where `computer_id` is the computer's uid string. The field is a foreign key to `WatchmanComputer` (reporter/models.py:31-34). The model layer refuses a value that is not a `WatchmanComputer` record with a value error, so creating a warning fails. | An empty warning table and one computer whose plugin reports status `warning`. | The warning is saved for that computer, as the test helper does by passing the computer record (backend/reporter/tests/test_report.py:78-80). | medium: not executed; rests on how the web framework handles a foreign-key assignment | TasksWatchman.StepAsWritten, TasksWatchman.AsWrittenNeverCreates | TasksWatchman.Step |

=== FILE: basics.dfy ===
/** Small shared vocabulary: optional values, results, calendar dates and
    the shared arithmetic and sequence helpers the reporter relies on. */
module Basics {

  /** Python's `None` or a present value. */
  datatype Option<+T> = None | Some(value: T)

  /** A computation that either yields a value or fails with an error. */
  datatype Result<+R, +E> = Ok(value: R) | Err(error: E)

  /** A calendar date as `datetime.date` holds it: year, month, day.
      Dates compare lexicographically on the triple. */
  datatype Date = Date(year: int, month: int, day: int)

  /** `a < b` on dates. */
  predicate Before(a: Date, b: Date) {
    || a.year < b.year
    || (a.year == b.year && a.month < b.month)
    || (a.year == b.year && a.month == b.month && a.day < b.day)
  }

  /** `a > b` on dates. */
  predicate After(a: Date, b: Date) {
    Before(b, a)
  }

  /** Lexicographic `<` is a strict total order: exactly one of `a < b`,
      `a == b`, `b < a` holds, and it is transitive. */
  lemma DateTrichotomy(a: Date, b: Date, c: Date)
    ensures Before(a, b) || a == b || Before(b, a)
    ensures !(Before(a, b) && Before(b, a))
    ensures !Before(a, a)
    ensures Before(a, b) && Before(b, c) ==> Before(a, c)
  {
  }

  /** Ceiling of `n / d` for a positive divisor: the least `q` with `q * d >= n`.
      This is what `math.ceil(n / d)` computes when the quotient is exact
      in floating point. */
  function CeilDiv(n: nat, d: nat): (q: nat)
    requires d > 0
    ensures q * d >= n
    ensures q == 0 || (q - 1) * d < n
  {
    var q := (n + d - 1) / d;
    var rem := (n + d - 1) % d;
    assert n + d - 1 == q * d + rem;
    assert (q - 1) * d == q * d - d;
    q
  }

  /** Any `q` meeting both ceiling bounds is the ceiling. */
  lemma CeilDivUnique(n: nat, d: nat, q: nat)
    requires d > 0
    requires q * d >= n
    requires q == 0 || (q - 1) * d < n
    ensures q == CeilDiv(n, d)
  {
    var c := CeilDiv(n, d);
    if q < c {
      assert q <= c - 1;
      MulMonotone(q, c - 1, d);
      assert false;
    } else if c < q {
      assert c <= q - 1;
      MulMonotone(c, q - 1, d);
      assert false;
    }
  }

  lemma MulMonotone(a: nat, b: nat, d: nat)
    requires a <= b
    ensures a * d <= b * d
  {
  }

  /** The concatenation of a list of lists, in order. */
  function Flatten<T>(pages: seq<seq<T>>): seq<T> {
    if |pages| == 0 then [] else pages[0] + Flatten(pages[1..])
  }

  /** The sum of the lengths of a list of lists. */
  function TotalLength<T>(pages: seq<seq<T>>): nat {
    if |pages| == 0 then 0 else |pages[0]| + TotalLength(pages[1..])
  }

  /** Flattening distributes over concatenation of the outer list. */
  lemma {:induction false} FlattenAppend<T>(a: seq<seq<T>>, b: seq<seq<T>>)
    ensures Flatten(a + b) == Flatten(a) + Flatten(b)
    ensures TotalLength(a + b) == TotalLength(a) + TotalLength(b)
  {
    if |a| == 0 {
      assert a + b == b;
    } else {
      assert (a + b)[1..] == a[1..] + b;
      FlattenAppend(a[1..], b);
    }
  }

  /** The flattened list is exactly as long as all its parts together. */
  lemma {:induction false} FlattenLength<T>(pages: seq<seq<T>>)
    ensures |Flatten(pages)| == TotalLength(pages)
  {
    if |pages| > 0 {
      FlattenLength(pages[1..]);
    }
  }

  /** Part `i` sits in the flattened list right after the parts before it. */
  lemma {:induction false} FlattenPart<T>(pages: seq<seq<T>>, i: nat)
    requires i < |pages|
    ensures TotalLength(pages[..i]) + |pages[i]| <= |Flatten(pages)|
    ensures Flatten(pages)[TotalLength(pages[..i])..TotalLength(pages[..i]) + |pages[i]|] == pages[i]
  {
    assert pages == pages[..i] + pages[i..];
    FlattenAppend(pages[..i], pages[i..]);
    FlattenLength(pages[..i]);
    assert Flatten(pages[i..]) == pages[i] + Flatten(pages[i + 1..]) by {
      assert pages[i..][1..] == pages[i + 1..];
    }
  }

  /** Concatenates the pages in order, one page at a time. */
  method ConcatPages<T>(pages: seq<seq<T>>) returns (r: seq<T>)
    ensures r == Flatten(pages)
    ensures |r| == TotalLength(pages)
  {
    r := [];
    var i := 0;
    while i < |pages|
      invariant 0 <= i <= |pages|
      invariant r == Flatten(pages[..i])
    {
      FlattenAppend(pages[..i], [pages[i]]);
      assert pages[..i + 1] == pages[..i] + [pages[i]];
      assert Flatten([pages[i]]) == pages[i] + Flatten([pages[i]][1..]);
      r := r + pages[i];
      i := i + 1;
    }
    assert pages[..i] == pages;
    FlattenLength(pages);
  }
}

=== FILE: cron.dfy ===
/** Acceptance of the five cron fields of a schedule request. Each field is
    checked by a whole-string regular expression; each expression is written
    here alternative by alternative, and proved to accept exactly `*` or a
    decimal numeral without a leading zero inside the field's range. */
module Cron {
  import opened Models

  predicate IsDigit(c: char) {
    '0' <= c <= '9'
  }

  predicate InChars(c: char, lo: char, hi: char) {
    lo <= c <= hi
  }

  /** `([1-5]?[0-9]|\*)` */
  predicate MinutePattern(s: string) {
    || s == "*"
    || (|s| == 1 && IsDigit(s[0]))
    || (|s| == 2 && InChars(s[0], '1', '5') && IsDigit(s[1]))
  }

  /** `1?[0-9]|2[0-3]|\*` */
  predicate HourPattern(s: string) {
    || (|s| == 1 && IsDigit(s[0]))
    || (|s| == 2 && s[0] == '1' && IsDigit(s[1]))
    || (|s| == 2 && s[0] == '2' && InChars(s[1], '0', '3'))
    || s == "*"
  }

  /** `[0-6]|\*` */
  predicate DayOfWeekPattern(s: string) {
    || (|s| == 1 && InChars(s[0], '0', '6'))
    || s == "*"
  }

  /** `[1-9]|[1-2][0-9]|3[0-1]|\*` */
  predicate DayOfMonthPattern(s: string) {
    || (|s| == 1 && InChars(s[0], '1', '9'))
    || (|s| == 2 && InChars(s[0], '1', '2') && IsDigit(s[1]))
    || (|s| == 2 && s[0] == '3' && InChars(s[1], '0', '1'))
    || s == "*"
  }

  /** `[1-9]|1[0-2]|\*` */
  predicate MonthPattern(s: string) {
    || (|s| == 1 && InChars(s[0], '1', '9'))
    || (|s| == 2 && s[0] == '1' && InChars(s[1], '0', '2'))
    || s == "*"
  }

  /** All five fields match their expressions. */
  predicate ValidCrontab(c: Crontab) {
    && MinutePattern(c.minute)
    && HourPattern(c.hour)
    && DayOfWeekPattern(c.dayOfWeek)
    && DayOfMonthPattern(c.dayOfMonth)
    && MonthPattern(c.monthOfYear)
  }

  // ---------------------------------------------------------------------
  // Reference reading: a canonical decimal numeral in a range, or `*`.

  predicate AllDigits(s: string) {
    forall i :: 0 <= i < |s| ==> IsDigit(s[i])
  }

  /** A non-empty decimal numeral that has no leading zero (but may be "0"). */
  predicate Canonical(s: string) {
    && |s| > 0
    && AllDigits(s)
    && (|s| == 1 || s[0] != '0')
  }

  function DigitValue(c: char): nat
    requires IsDigit(c)
  {
    (c as int - '0' as int) as nat
  }

  /** The value of a decimal numeral. */
  function Value(s: string): nat
    requires AllDigits(s)
  {
    if |s| == 0 then 0 else Value(s[..|s| - 1]) * 10 + DigitValue(s[|s| - 1])
  }

  function Pow10(k: nat): nat {
    if k == 0 then 1 else 10 * Pow10(k - 1)
  }

  /** `*`, or a canonical numeral whose value is in `[lo, hi]`. */
  predicate FieldInRange(s: string, lo: nat, hi: nat) {
    s == "*" || (Canonical(s) && lo <= Value(s) <= hi)
  }

  /** A numeral that starts with a non-zero digit is at least 10^(length-1). */
  lemma {:induction false} LeadingDigitBound(s: string)
    requires |s| > 0 && AllDigits(s) && s[0] != '0'
    ensures Value(s) >= Pow10(|s| - 1)
  {
    if |s| > 1 {
      var p := s[..|s| - 1];
      assert p[0] == s[0];
      LeadingDigitBound(p);
    }
  }

  /** A canonical numeral below 100 has at most two digits. */
  lemma ShortNumeral(s: string)
    requires Canonical(s) && Value(s) < 100
    ensures |s| <= 2
  {
    if |s| > 2 {
      LeadingDigitBound(s);
      Pow10Monotone(2, |s| - 1);
    }
  }

  lemma {:induction false} Pow10Monotone(a: nat, b: nat)
    requires a <= b
    ensures Pow10(a) <= Pow10(b)
  {
    if a < b {
      Pow10Monotone(a, b - 1);
    }
  }

  lemma TwoDigitValue(s: string)
    requires |s| == 2 && AllDigits(s)
    ensures Value(s) == DigitValue(s[0]) * 10 + DigitValue(s[1])
  {
    var p := s[..1];
    assert p[..0] == [];
    assert Value(p) == DigitValue(s[0]);
  }

  lemma OneDigitValue(s: string)
    requires |s| == 1 && AllDigits(s)
    ensures Value(s) == DigitValue(s[0])
  {
    assert s[..0] == [];
  }

  /** Shared step of the five equivalences: a field in a range below 100 is
      `*` or a one- or two-digit canonical numeral, whose value is read off
      its digits. */
  lemma ShortForms(s: string, lo: nat, hi: nat)
    requires hi < 100
    ensures FieldInRange(s, lo, hi) <==>
      || s == "*"
      || (|s| == 1 && IsDigit(s[0]) && lo <= DigitValue(s[0]) <= hi)
      || (|s| == 2 && IsDigit(s[0]) && IsDigit(s[1]) && s[0] != '0'
          && lo <= DigitValue(s[0]) * 10 + DigitValue(s[1]) <= hi)
  {
    if Canonical(s) {
      if Value(s) <= hi {
        ShortNumeral(s);
      }
      if |s| == 1 {
        OneDigitValue(s);
      } else if |s| == 2 {
        TwoDigitValue(s);
      }
    }
    if |s| == 1 && IsDigit(s[0]) {
      assert AllDigits(s);
      OneDigitValue(s);
    }
    if |s| == 2 && IsDigit(s[0]) && IsDigit(s[1]) {
      assert AllDigits(s);
      TwoDigitValue(s);
    }
  }

  /** The minute expression accepts exactly `*` and 0 to 59. */
  lemma MinuteRange(s: string)
    ensures MinutePattern(s) <==> FieldInRange(s, 0, 59)
  {
    ShortForms(s, 0, 59);
  }

  /** The hour expression accepts exactly `*` and 0 to 23. */
  lemma HourRange(s: string)
    ensures HourPattern(s) <==> FieldInRange(s, 0, 23)
  {
    ShortForms(s, 0, 23);
  }

  /** The day-of-week expression accepts exactly `*` and 0 to 6. */
  lemma DayOfWeekRange(s: string)
    ensures DayOfWeekPattern(s) <==> FieldInRange(s, 0, 6)
  {
    ShortForms(s, 0, 6);
  }

  /** The day-of-month expression accepts exactly `*` and 1 to 31. */
  lemma DayOfMonthRange(s: string)
    ensures DayOfMonthPattern(s) <==> FieldInRange(s, 1, 31)
  {
    ShortForms(s, 1, 31);
  }

  /** The month expression accepts exactly `*` and 1 to 12. */
  lemma MonthRange(s: string)
    ensures MonthPattern(s) <==> FieldInRange(s, 1, 12)
  {
    ShortForms(s, 1, 12);
  }

  /** A crontab is accepted exactly when every field is `*` or a canonical
      numeral in its range. */
  lemma ValidCrontabRanges(c: Crontab)
    ensures ValidCrontab(c) <==>
      && FieldInRange(c.minute, 0, 59)
      && FieldInRange(c.hour, 0, 23)
      && FieldInRange(c.dayOfWeek, 0, 6)
      && FieldInRange(c.dayOfMonth, 1, 31)
      && FieldInRange(c.monthOfYear, 1, 12)
  {
    MinuteRange(c.minute);
    HourRange(c.hour);
    DayOfWeekRange(c.dayOfWeek);
    DayOfMonthRange(c.dayOfMonth);
    MonthRange(c.monthOfYear);
  }

  /** A minute of 61 is refused; a leading zero is refused too. */
  lemma MinuteExamples()
    ensures !MinutePattern("61")
    ensures !MinutePattern("05")
    ensures MinutePattern("0") && MinutePattern("59") && MinutePattern("*")
  {
  }
}

=== FILE: legacy_schedule_serializer.dfy ===
/** The earlier copy of the schedule serializer
    (`PeriodicTaskField.to_internal_value` in the first `reporter` app).
    It looks the customer up, builds the task name, fetches or creates the
    crontab with no validation of its fields, refuses a duplicate name and
    only then maps the task type. It checks neither the service id nor the
    cron fields. */
module LegacyScheduleSerializer {
  import opened Basics
  import opened Models
  import ScheduleSerializer

  /** Why a schedule request was refused. Requests and stores are the
      current copy's `ScheduleRequest` and `Stores`. */
  datatype LegacyError =
    | CustomerRequired      // 'This field is required'
    | CustomerInvalid       // 'This field must be a valid customer id'
    | DuplicateName         // 'A periodic task with this name already exists'
  {
    /** The code attached to the error; the duplicate-name error has none. */
    function Code(): Option<int> {
      match this
      case CustomerRequired => Some(400)
      case CustomerInvalid => Some(404)
      case DuplicateName => None
    }
  }

  datatype Outcome = Outcome(result: Result<PeriodicTask, LegacyError>, crontabs: set<Crontab>)

  /** Validates a schedule request and maps it to a periodic task. The task
      type is read only once the customer is known and the name is unused;
      on that path it must be one of the two kinds, for with any other value
      the program reaches the task construction with no task path bound and
      fails. Every earlier answer is given whatever the task type. */
  function ToInternalValue(st: ScheduleSerializer.Stores, req: ScheduleSerializer.ScheduleRequest): (out: Outcome)
    requires
      && req.customer.Some? && req.customer.value in st.customers
      && TaskName(st.customers[req.customer.value], req.taskType) !in st.taskNames
      ==> ParseTaskType(req.taskType).Some?
    ensures req.customer.None? ==> out == Outcome(Err(CustomerRequired), st.crontabs)
    ensures req.customer.Some? && req.customer.value !in st.customers ==>
      out == Outcome(Err(CustomerInvalid), st.crontabs)
    // the customer errors carry the status codes 400 and 404
    ensures req.customer.None? ==> out.result.error.Code() == Some(400)
    ensures req.customer.Some? && req.customer.value !in st.customers ==> out.result.error.Code() == Some(404)
    // for a known customer the crontab is stored whatever follows
    ensures req.customer.Some? && req.customer.value in st.customers ==>
      out.crontabs == st.crontabs + {req.periodicTask}
    ensures out.result == Err(DuplicateName) <==>
      && req.customer.Some? && req.customer.value in st.customers
      && TaskName(st.customers[req.customer.value], req.taskType) in st.taskNames
    ensures out.result.Ok? <==>
      && req.customer.Some? && req.customer.value in st.customers
      && TaskName(st.customers[req.customer.value], req.taskType) !in st.taskNames
    ensures out.result.Ok? ==>
      && var c := st.customers[req.customer.value];
      && var t := ParseTaskType(req.taskType).value;
      && out.result.value.crontab == req.periodicTask
      && out.result.value.crontab in out.crontabs
      && out.result.value.name == TaskName(c, req.taskType)
      && out.result.value.task == t.TaskPath()
      && out.result.value.args == [t.ServiceId(c)]
  {
    if req.customer.None? then Outcome(Err(CustomerRequired), st.crontabs)
    else if req.customer.value !in st.customers then Outcome(Err(CustomerInvalid), st.crontabs)
    else
      var customer := st.customers[req.customer.value];
      var taskName := TaskName(customer, req.taskType);
      var crontabs := st.crontabs + {req.periodicTask};
      if taskName in st.taskNames then
        Outcome(Err(DuplicateName), crontabs)
      else
        var t := ParseTaskType(req.taskType).value;
        Outcome(Ok(PeriodicTask(req.periodicTask, taskName, t.TaskPath(), [t.ServiceId(customer)])), crontabs)
  }

  /** Where both copies accept a request they build the same periodic
      task; the earlier copy accepts more (no cron or service-id check). */
  lemma AgreesWithCurrent(st: ScheduleSerializer.Stores, req: ScheduleSerializer.ScheduleRequest)
    ensures
      var cur := ScheduleSerializer.ToInternalValue(st, req);
      cur.result.Ok? ==>
        var prev := ToInternalValue(st, req);
        && prev.result.Ok? && prev.result.value == cur.result.value
        && prev.crontabs == cur.crontabs
  {
  }

  /** A null service id is not refused: the task is built with a null
      argument. */
  lemma NullServiceIdAccepted(st: ScheduleSerializer.Stores, id: nat, cron: Crontab)
    requires id in st.customers
    requires st.customers[id].watchmanGroupId.None?
    requires TaskName(st.customers[id], "watchman") !in st.taskNames
    ensures ToInternalValue(st, ScheduleSerializer.ScheduleRequest(Some(id), "watchman", cron)).result.value.args == [None]
  {
  }

  /** The task type is not read before the duplicate-name check: an unknown
      type with a taken name draws the duplicate error, and the crontab has
      already been stored. */
  lemma DuplicateBeforeTaskType(st: ScheduleSerializer.Stores, id: nat, taskType: string, cron: Crontab)
    requires id in st.customers
    requires ParseTaskType(taskType).None?
    requires TaskName(st.customers[id], taskType) in st.taskNames
    ensures ToInternalValue(st, ScheduleSerializer.ScheduleRequest(Some(id), taskType, cron)) ==
      Outcome(Err(DuplicateName), st.crontabs + {cron})
  {
  }
}

=== FILE: models.dfy ===
/** The reporter's database rows, keeping the identifying, date and nullable
    columns. Floating-point hardware columns of computers are not kept. */
module Models {
  import opened Basics

  /** A customer; either service id may be null. */
  datatype Customer = Customer(
    id: nat,
    name: string,
    watchmanGroupId: Option<string>,
    repairshoprId: Option<string>)

  /** A computer reported by Watchman, belonging to the customer whose
      Watchman group id it carries. */
  datatype WatchmanComputer = WatchmanComputer(
    watchmanGroupId: string,
    computerId: string,
    dateReported: Date,
    dateLastReported: Date,
    name: string,
    osType: string,
    osVersion: string)

  /** A Watchman plugin warning on one computer. It is open while
      `dateResolved` is null. */
  datatype WatchmanWarning = WatchmanWarning(
    watchmanGroupId: string,
    computerId: string,
    warningId: string,
    dateReported: Date,
    dateLastChecked: Date,
    dateResolved: Option<Date>,
    name: string,
    details: string)
  {
    predicate IsOpen() {
      dateResolved.None?
    }
  }

  /** A report request for one customer over `[startDate, endDate]`, with
      its summary counters (all default to zero). */
  datatype Report = Report(
    customer: nat,
    startDate: Date,
    endDate: Date,
    dateGenerated: Date,
    numCurrentWarnings: int,
    numResolvedWarnings: int,
    numMacOs: int,
    numWindowsOs: int,
    numLinuxOs: int)

  /** The five cron fields of a crontab schedule, as submitted strings. */
  datatype Crontab = Crontab(
    minute: string,
    hour: string,
    dayOfWeek: string,
    dayOfMonth: string,
    monthOfYear: string)

  /** A periodic task about to be saved: its crontab, unique name, the
      dotted path of the task to run and that task's arguments (a null
      service id is a `None` argument). */
  datatype PeriodicTask = PeriodicTask(
    crontab: Crontab,
    name: string,
    task: string,
    args: seq<Option<string>>)

  /** The two kinds of scheduled update and the service each talks to. */
  datatype TaskType = Watchman | RepairShopr
  {
    /** The request's `task_type` value naming this kind. */
    function Name(): string {
      match this
      case Watchman => "watchman"
      case RepairShopr => "repairshopr"
    }

    /** The dotted path of the task this kind schedules. */
    function TaskPath(): string {
      match this
      case Watchman => "reporter.tasks_watchman.update_client"
      case RepairShopr => "reporter.tasks_repairshopr.update_client"
    }

    /** The customer's id on this kind's service. */
    function ServiceId(c: Customer): Option<string> {
      match this
      case Watchman => c.watchmanGroupId
      case RepairShopr => c.repairshoprId
    }
  }

  /** The task kind a `task_type` string names, if any. */
  function ParseTaskType(s: string): (t: Option<TaskType>)
    ensures t.Some? <==> s == "watchman" || s == "repairshopr"
    ensures t.Some? ==> t.value.Name() == s
  {
    if s == "watchman" then Some(Watchman)
    else if s == "repairshopr" then Some(RepairShopr)
    else None
  }

  /** The name a customer's periodic task of a given kind gets:
      the customer's name, one space, the task type. */
  function TaskName(c: Customer, taskType: string): string {
    c.name + " " + taskType
  }
}

=== FILE: pagination.dfy ===
/** The standard result-set pagination: its page-size settings and the
    metadata of a paginated response. Next/previous links are URLs built by
    the web framework and are not kept. */
module Pagination {
  import opened Basics

  /** Page size when the request does not choose one. */
  const PageSize: nat := 10
  /** The query parameter that chooses the page size. */
  const PageSizeQueryParam: string := "page_size"
  /** The largest page size a request may choose. */
  const MaxPageSize: nat := 100

  /** The page size used for a request, given its query parameters (each
      value read as an integer; a parameter that is not an integer is
      absent). A positive `page_size` is used, capped at the maximum;
      anything else falls back to the default. */
  function EffectivePageSize(query: map<string, int>): (s: nat)
    ensures 1 <= s <= MaxPageSize
    ensures PageSizeQueryParam !in query || query[PageSizeQueryParam] <= 0 ==> s == PageSize
    ensures PageSizeQueryParam in query && 0 < query[PageSizeQueryParam] <= MaxPageSize ==>
      s == query[PageSizeQueryParam]
    ensures PageSizeQueryParam in query && query[PageSizeQueryParam] > MaxPageSize ==> s == MaxPageSize
  {
    if PageSizeQueryParam !in query then PageSize
    else
      var n := query[PageSizeQueryParam];
      if n <= 0 then PageSize
      else if n > MaxPageSize then MaxPageSize
      else n
  }

  /** Asking again for the size a request was given yields that size, and
      parameters other than `page_size` have no effect. */
  lemma PageSizeStable(query: map<string, int>, other: string, v: int)
    requires other != PageSizeQueryParam
    ensures EffectivePageSize(map[PageSizeQueryParam := EffectivePageSize(query)]) == EffectivePageSize(query)
    ensures EffectivePageSize(query[other := v]) == EffectivePageSize(query)
  {
  }

  /** The body of a paginated response. */
  datatype PageResponse<T> = PageResponse(
    results: seq<T>,
    resultsCount: nat,
    page: nat,
    pageCount: nat,
    pageSize: nat)

  /** Builds the response for page `page` of `count` results split into
      pages of `perPage`. */
  function GetPaginatedResponse<T>(data: seq<T>, count: nat, perPage: nat, page: nat): (r: PageResponse<T>)
    requires perPage > 0
    ensures r.pageCount * perPage >= count
    ensures count > 0 ==> (r.pageCount - 1) * perPage < count
    ensures count == 0 ==> r.pageCount == 0
    ensures r.results == data && r.resultsCount == count && r.page == page && r.pageSize == perPage
  {
    PageResponse(data, count, page, CeilDiv(count, perPage), perPage)
  }

  /** Every result falls on a page that the page count includes: result
      `k` (from zero) is on page `k / perPage + 1`. */
  lemma EveryResultOnCountedPage<T>(data: seq<T>, count: nat, perPage: nat, page: nat, k: nat)
    requires perPage > 0
    requires k < count
    ensures 1 <= k / perPage + 1 <= GetPaginatedResponse(data, count, perPage, page).pageCount
  {
    var n := GetPaginatedResponse(data, count, perPage, page).pageCount;
    var q := k / perPage;
    assert q * perPage <= k;
    if q >= n {
      MulMonotone(n, q, perPage);
      assert false;
    }
  }

  /** Two results shown one per page make two pages. */
  lemma TwoResultsPerOne<T>(data: seq<T>)
    ensures var r := GetPaginatedResponse(data, 2, 1, 1);
      r.pageCount == 2 && r.pageSize == 1 && r.resultsCount == 2 && r.page == 1
  {
    CeilDivUnique(2, 1, 2);
  }
}

=== FILE: report_filters.dfy ===
/** The two template filters that summarise a report from its sub-reports.
    A sub-report here carries only the three columns the filters read. */
module ReportFilters {
  import opened Basics
  import opened Models

  /** The columns of a report's sub-report that the filters read. */
  datatype SubReport = SubReport(endDate: Date, numWarningsResolved: int, numWarningsUnresolvedEnd: int)

  /** Why a single-row lookup failed. */
  datatype LookupError = DoesNotExist | MultipleObjectsReturned

  /** The resolved-warning counts of the sub-reports, summed. */
  function SumResolved(subs: seq<SubReport>): int {
    if |subs| == 0 then 0 else subs[0].numWarningsResolved + SumResolved(subs[1..])
  }

  /** Adding a sub-report adds exactly its resolved count. */
  lemma {:induction false} SumResolvedAppend(subs: seq<SubReport>, s: SubReport)
    ensures SumResolved(subs + [s]) == SumResolved(subs) + s.numWarningsResolved
  {
    if |subs| == 0 {
      assert subs + [s] == [s];
    } else {
      assert (subs + [s])[1..] == subs[1..] + [s];
      SumResolvedAppend(subs[1..], s);
    }
  }

  /** The sum does not depend on the order of the sub-reports: it is the
      same when any two adjacent ones are swapped. */
  lemma {:induction false} SumResolvedSwap(subs: seq<SubReport>, i: nat)
    requires i + 1 < |subs|
    ensures SumResolved(subs[i := subs[i + 1]][i + 1 := subs[i]]) == SumResolved(subs)
  {
    var t := subs[i := subs[i + 1]][i + 1 := subs[i]];
    if i == 0 {
      assert t[1..][1..] == subs[1..][1..];
    } else {
      assert t[1..] == subs[1..][i - 1 := subs[i + 1]][i := subs[i]];
      SumResolvedSwap(subs[1..], i - 1);
    }
  }

  /** The sum over two runs of sub-reports joined is the sum of their sums. */
  lemma {:induction false} SumResolvedConcat(a: seq<SubReport>, b: seq<SubReport>)
    ensures SumResolved(a + b) == SumResolved(a) + SumResolved(b)
  {
    if |a| == 0 {
      assert a + b == b;
    } else {
      assert (a + b)[1..] == a[1..] + b;
      SumResolvedConcat(a[1..], b);
    }
  }

  /** The sum does not depend on the order of the sub-reports at all: any
      two sequences holding the same sub-reports have the same sum. */
  lemma {:induction false} SumResolvedPermutation(a: seq<SubReport>, b: seq<SubReport>)
    requires multiset(a) == multiset(b)
    ensures SumResolved(a) == SumResolved(b)
    decreases |a|
  {
    if |a| > 0 {
      assert a[0] in multiset(b);
      var j :| 0 <= j < |b| && b[j] == a[0];
      assert b == b[..j] + [b[j]] + b[j + 1..];
      var rest := b[..j] + b[j + 1..];
      assert a == [a[0]] + a[1..];
      assert multiset(a[1..]) == multiset(rest) by {
        calc {
          multiset(a[1..]);
          multiset(a) - multiset{a[0]};
          multiset(b) - multiset{b[j]};
          multiset(b[..j]) + multiset(b[j + 1..]);
          multiset(rest);
        }
      }
      SumResolvedPermutation(a[1..], rest);
      SumResolvedConcat(b[..j], [b[j]] + b[j + 1..]);
      SumResolvedConcat(b[..j], b[j + 1..]);
      assert b[..j] + [b[j]] + b[j + 1..] == b[..j] + ([b[j]] + b[j + 1..]);
    }
  }

  /** Counts the warnings resolved during the report period by adding up
      each sub-report's resolved count. */
  method CountResolvedWarnings(subs: seq<SubReport>) returns (total: int)
    ensures total == SumResolved(subs)
    ensures |subs| == 0 ==> total == 0
  {
    total := 0;
    var i := 0;
    while i < |subs|
      invariant 0 <= i <= |subs|
      invariant total == SumResolved(subs[..i])
    {
      SumResolvedAppend(subs[..i], subs[i]);
      assert subs[..i + 1] == subs[..i] + [subs[i]];
      total := total + subs[i].numWarningsResolved;
      i := i + 1;
    }
    assert subs[..i] == subs;
  }

  /** The positions, in increasing order, of the first `n` sub-reports
      that end on `d`. */
  function EndingOn(subs: seq<SubReport>, d: Date, n: nat): (r: seq<nat>)
    requires n <= |subs|
    ensures forall k :: 0 <= k < |r| ==> r[k] < n && subs[r[k]].endDate == d
    ensures forall i :: 0 <= i < n && subs[i].endDate == d ==> i in r
    ensures forall k, l :: 0 <= k < l < |r| ==> r[k] < r[l]
  {
    if n == 0 then []
    else
      var r := EndingOn(subs, d, n - 1);
      if subs[n - 1].endDate == d then r + [n - 1] else r
  }

  /** The unresolved-at-end count of the one sub-report that ends on the
      report's end date; the lookup fails when there is none or more than
      one. */
  function CountUnresolvedWarnings(report: Report, subs: seq<SubReport>): (r: Result<int, LookupError>)
    ensures r == Err(DoesNotExist) <==> forall i :: 0 <= i < |subs| ==> subs[i].endDate != report.endDate
    ensures r == Err(MultipleObjectsReturned) <==>
      exists i, j :: 0 <= i < j < |subs| && subs[i].endDate == report.endDate && subs[j].endDate == report.endDate
    ensures r.Ok? ==> exists i :: (
      && 0 <= i < |subs| && subs[i].endDate == report.endDate
      && r.value == subs[i].numWarningsUnresolvedEnd
      && forall j :: 0 <= j < |subs| && subs[j].endDate == report.endDate ==> j == i)
  {
    var found := EndingOn(subs, report.endDate, |subs|);
    if |found| == 0 then
      Err(DoesNotExist)
    else if |found| > 1 then
      assert subs[found[0]].endDate == report.endDate && subs[found[1]].endDate == report.endDate;
      Err(MultipleObjectsReturned)
    else
      var i := found[0];
      assert forall j :: 0 <= j < |subs| && subs[j].endDate == report.endDate ==> j == i by {
        forall j | 0 <= j < |subs| && subs[j].endDate == report.endDate ensures j == i {
          assert j in found;
        }
      }
      Ok(subs[i].numWarningsUnresolvedEnd)
  }
}

=== FILE: report_view.dfy ===
/** The create-report endpoint (`ReportLCView.post`): field-by-field
    validation of the customer and two dates into an error map, and the
    creation of a bare report only when that map is empty. */
module ReportView {
  import opened Basics
  import opened Models

  /** The request fields that can carry an error. */
  datatype Field = CustomerField | StartDateField | EndDateField
  {
    /** The key of this field in the error response. */
    function Key(): string {
      match this
      case CustomerField => "customer"
      case StartDateField => "start_date"
      case EndDateField => "end_date"
    }
  }

  /** Why a field was rejected. */
  datatype Message =
    | CustomerDoesNotExist    // the customer lookup raised DoesNotExist
    | BadDateFormat           // the date did not parse as YYYY-MM-DD
    | StartAfterToday         // 'Start date is after current date.'
    | EndAfterToday           // 'End date is after current date.'
    | EndBeforeStart          // 'End date is before the starting date.'

  /** A create-report request: the customer id and each date as it came out
      of parsing with the `%Y-%m-%d` format (`None` when parsing failed). */
  datatype ReportRequest = ReportRequest(
    customer: nat,
    startDate: Option<Date>,
    endDate: Option<Date>)

  /** The endpoint's answer. */
  datatype ReportResponse = Created | BadRequest(errors: map<Field, Message>)
  {
    function Status(): int {
      match this
      case Created => 201
      case BadRequest(_) => 400
    }
  }

  /** The error the start date draws, if any. */
  function StartDateError(start: Option<Date>, today: Date): (e: Option<Message>)
    ensures e.Some? <==> start.None? || After(start.value, today)
    ensures e == Some(BadDateFormat) <==> start.None?
    ensures e == Some(StartAfterToday) <==> start.Some? && After(start.value, today)
  {
    match start
    case None => Some(BadDateFormat)
    case Some(s) => if After(s, today) then Some(StartAfterToday) else None
  }

  /** The error the end date draws, if any. The ordering check runs only
      when the start date drew no error, and it comes after the future
      check, so a future end date reports that first. */
  function EndDateError(start: Option<Date>, end: Option<Date>, today: Date): (e: Option<Message>)
    ensures e == Some(BadDateFormat) <==> end.None?
    ensures e == Some(EndAfterToday) <==> end.Some? && After(end.value, today)
    ensures e == Some(EndBeforeStart) <==>
      && end.Some? && !After(end.value, today)
      && start.Some? && !After(start.value, today)
      && Before(end.value, start.value)
    ensures e.None? <==>
      && end.Some? && !After(end.value, today)
      && (StartDateError(start, today).Some? || !Before(end.value, start.value))
  {
    match end
    case None => Some(BadDateFormat)
    case Some(e) =>
      if After(e, today) then Some(EndAfterToday)
      else if StartDateError(start, today).None? && Before(e, start.value) then Some(EndBeforeStart)
      else None
  }

  /** Adds `f := m` to the error map when there is an error. */
  function Record(errors: map<Field, Message>, f: Field, m: Option<Message>): map<Field, Message> {
    if m.Some? then errors[f := m.value] else errors
  }

  /** The error map built by checking the customer, the start date and the
      end date in turn; every check runs whatever the earlier ones found. */
  function Validate(customers: map<nat, Customer>, req: ReportRequest, today: Date): (errors: map<Field, Message>)
    ensures CustomerField in errors <==> req.customer !in customers
    ensures CustomerField in errors ==> errors[CustomerField] == CustomerDoesNotExist
    ensures StartDateField in errors <==> req.startDate.None? || After(req.startDate.value, today)
    ensures StartDateField in errors ==> Some(errors[StartDateField]) == StartDateError(req.startDate, today)
    ensures EndDateField in errors <==> EndDateError(req.startDate, req.endDate, today).Some?
    ensures EndDateField in errors ==> Some(errors[EndDateField]) == EndDateError(req.startDate, req.endDate, today)
  {
    var customerErr := if req.customer in customers then None else Some(CustomerDoesNotExist);
    var e0 := Record(map[], CustomerField, customerErr);
    var e1 := Record(e0, StartDateField, StartDateError(req.startDate, today));
    Record(e1, EndDateField, EndDateError(req.startDate, req.endDate, today))
  }

  /** The report created for an accepted request: the given customer and
      dates, generated today, with all counters at their default of zero. */
  function NewReport(req: ReportRequest, today: Date): Report
    requires req.startDate.Some? && req.endDate.Some?
  {
    Report(req.customer, req.startDate.value, req.endDate.value, today, 0, 0, 0, 0, 0)
  }

  /** Handles a create-report request against the customer table and the
      report table, returning the response and the new report table. */
  function Post(customers: map<nat, Customer>, reports: seq<Report>, req: ReportRequest, today: Date)
    : (out: (ReportResponse, seq<Report>))
    ensures out.0.Created? <==>
      && req.customer in customers
      && req.startDate.Some? && !After(req.startDate.value, today)
      && req.endDate.Some? && !After(req.endDate.value, today)
      && !Before(req.endDate.value, req.startDate.value)
    ensures out.0.BadRequest? ==> out.0.Status() == 400 && out.1 == reports && |out.0.errors| > 0
    ensures out.0.BadRequest? ==> out.0.errors == Validate(customers, req, today)
    ensures out.0.Created? ==> out.0.Status() == 201
    ensures out.0.Created? ==>
      && |out.1| == |reports| + 1
      && out.1[..|reports|] == reports
      && out.1[|reports|].customer == req.customer
      && Some(out.1[|reports|].startDate) == req.startDate
      && Some(out.1[|reports|].endDate) == req.endDate
      && out.1[|reports|].dateGenerated == today
      && out.1[|reports|].numCurrentWarnings == 0
      && out.1[|reports|].numResolvedWarnings == 0
      && out.1[|reports|].numMacOs == 0
      && out.1[|reports|].numWindowsOs == 0
      && out.1[|reports|].numLinuxOs == 0
  {
    var errors := Validate(customers, req, today);
    if |errors| > 0 then
      (BadRequest(errors), reports)
    else
      assert CustomerField !in errors && StartDateField !in errors && EndDateField !in errors;
      (Created, reports + [NewReport(req, today)])
  }

  /** The date checks do not depend on the customer: an unknown customer
      adds its own entry and leaves the date entries as they would be. */
  lemma DateErrorsIgnoreCustomer(c1: map<nat, Customer>, c2: map<nat, Customer>, req: ReportRequest, today: Date)
    ensures Validate(c1, req, today) - {CustomerField} == Validate(c2, req, today) - {CustomerField}
  {
    var a := Validate(c1, req, today) - {CustomerField};
    var b := Validate(c2, req, today) - {CustomerField};
    forall f | f in a ensures f in b && a[f] == b[f] {
    }
    forall f | f in b ensures f in a {
    }
  }

  /** A start date equal to today, and an end date equal to the start,
      are accepted. */
  lemma TodayAccepted(customers: map<nat, Customer>, reports: seq<Report>, c: nat, today: Date)
    requires c in customers
    ensures Post(customers, reports, ReportRequest(c, Some(today), Some(today)), today).0.Created?
  {
    DateTrichotomy(today, today, today);
  }

  /** Errors accumulate: an unknown customer, an unparsable start date and
      a future end date are all reported by the one request. */
  lemma ErrorsAccumulate(customers: map<nat, Customer>, c: nat, end: Date, today: Date)
    requires c !in customers
    requires After(end, today)
    ensures Validate(customers, ReportRequest(c, None, Some(end)), today) ==
      map[CustomerField := CustomerDoesNotExist, StartDateField := BadDateFormat, EndDateField := EndAfterToday]
  {
  }

  /** A future start date suppresses the ordering check: an end date before
      it but not in the future draws no error. */
  lemma FutureStartSkipsOrdering(customers: map<nat, Customer>, req: ReportRequest, today: Date)
    requires req.startDate.Some? && After(req.startDate.value, today)
    requires req.endDate.Some? && !After(req.endDate.value, today)
    ensures EndDateField !in Validate(customers, req, today)
  {
  }
}

=== FILE: schedule_serializer.dfy ===
/** Validation of a create-schedule request and its mapping to a periodic
    task (`PeriodicTaskField.to_internal_value`, current version). The checks
    run in a fixed order and the first one that fails ends the request:
    customer, task type, service id, cron fields, duplicate task name.
    The crontab is fetched or created after the cron check and before the
    duplicate-name check. */
module ScheduleSerializer {
  import opened Basics
  import opened Models
  import Cron

  /** A create-schedule request: the customer id (`None` when the key is
      absent), the task type and the five cron fields. */
  datatype ScheduleRequest = ScheduleRequest(
    customer: Option<nat>,
    taskType: string,
    periodicTask: Crontab)

  /** Why a schedule request was refused. */
  datatype ScheduleError =
    | CustomerRequired      // 'This field is required'
    | CustomerInvalid       // 'This field must be a valid customer id'
    | BadTaskType           // 'This field must be either "watchman" or "repairshopr"'
    | NoWatchmanId          // 'The specified customer does not have a Watchman ID defined'
    | NoRepairShoprId       // 'The specified customer does not have a RepairShopr ID defined'
    | CronInvalid           // 'Cron parameters are not valid'
    | DuplicateName         // 'A periodic task with this name already exists'
  {
    /** The response key the error is reported under; the duplicate-name
        error has none. The cron key is spelled as the program spells it. */
    function Key(): Option<string> {
      match this
      case CustomerRequired => Some("customer")
      case CustomerInvalid => Some("customer")
      case BadTaskType => Some("task_type")
      case NoWatchmanId => Some("task_type")
      case NoRepairShoprId => Some("task_type")
      case CronInvalid => Some("periodic_tas")
      case DuplicateName => None
    }
  }

  /** The stores the validation reads and writes. */
  datatype Stores = Stores(
    customers: map<nat, Customer>,
    crontabs: set<Crontab>,
    taskNames: set<string>)

  /** The outcome: the periodic task to save, or the error, together with
      the crontab store after the call. */
  datatype Outcome = Outcome(result: Result<PeriodicTask, ScheduleError>, crontabs: set<Crontab>)

  /** The customer is known, the task type is one of the two kinds and the
      customer has an id on that kind's service. */
  predicate ServiceChecksPass(st: Stores, req: ScheduleRequest) {
    && req.customer.Some? && req.customer.value in st.customers
    && ParseTaskType(req.taskType).Some?
    && ParseTaskType(req.taskType).value.ServiceId(st.customers[req.customer.value]).Some?
  }

  /** Validates a schedule request and maps it to a periodic task. */
  function ToInternalValue(st: Stores, req: ScheduleRequest): (out: Outcome)
    // customer
    ensures req.customer.None? ==> out.result == Err(CustomerRequired)
    ensures req.customer.Some? && req.customer.value !in st.customers ==> out.result == Err(CustomerInvalid)
    // task type, checked only for a known customer
    ensures req.customer.Some? && req.customer.value in st.customers ==>
      (out.result == Err(BadTaskType) <==> ParseTaskType(req.taskType).None?)
    // service id
    ensures out.result == Err(NoWatchmanId) <==>
      && req.customer.Some? && req.customer.value in st.customers
      && req.taskType == "watchman" && st.customers[req.customer.value].watchmanGroupId.None?
    ensures out.result == Err(NoRepairShoprId) <==>
      && req.customer.Some? && req.customer.value in st.customers
      && req.taskType == "repairshopr" && st.customers[req.customer.value].repairshoprId.None?
    // cron fields, checked once the customer and service checks pass
    ensures out.result == Err(CronInvalid) <==> ServiceChecksPass(st, req) && !Cron.ValidCrontab(req.periodicTask)
    // the crontab store gains the submitted crontab exactly when the cron
    // check is reached and passed, and is otherwise unchanged
    ensures out.crontabs == st.crontabs || out.crontabs == st.crontabs + {req.periodicTask}
    ensures out.result.Ok? || out.result == Err(DuplicateName) ==> out.crontabs == st.crontabs + {req.periodicTask}
    ensures out.result.Err? && out.result != Err(DuplicateName) ==> out.crontabs == st.crontabs
    // a duplicate name is refused only after every other check passed
    ensures out.result == Err(DuplicateName) <==>
      && ServiceChecksPass(st, req)
      && Cron.ValidCrontab(req.periodicTask)
      && TaskName(st.customers[req.customer.value], req.taskType) in st.taskNames
    // success
    ensures out.result.Ok? <==>
      && ServiceChecksPass(st, req)
      && Cron.ValidCrontab(req.periodicTask)
      && TaskName(st.customers[req.customer.value], req.taskType) !in st.taskNames
    ensures out.result.Ok? ==>
      && var c := st.customers[req.customer.value];
      && var t := ParseTaskType(req.taskType).value;
      && out.result.value.crontab == req.periodicTask
      && out.result.value.name == TaskName(c, req.taskType)
      && out.result.value.name !in st.taskNames
      && out.result.value.task == t.TaskPath()
      && out.result.value.args == [t.ServiceId(c)]
  {
    if req.customer.None? then Outcome(Err(CustomerRequired), st.crontabs)
    else if req.customer.value !in st.customers then Outcome(Err(CustomerInvalid), st.crontabs)
    else
      var customer := st.customers[req.customer.value];
      match ParseTaskType(req.taskType)
      case None => Outcome(Err(BadTaskType), st.crontabs)
      case Some(t) =>
        var taskArgs := [t.ServiceId(customer)];
        if req.taskType == "watchman" && customer.watchmanGroupId.None? then
          Outcome(Err(NoWatchmanId), st.crontabs)
        else if req.taskType == "repairshopr" && customer.repairshoprId.None? then
          Outcome(Err(NoRepairShoprId), st.crontabs)
        else
          var taskName := TaskName(customer, req.taskType);
          if !Cron.ValidCrontab(req.periodicTask) then
            Outcome(Err(CronInvalid), st.crontabs)
          else
            var crontabs := st.crontabs + {req.periodicTask};
            if taskName in st.taskNames then
              Outcome(Err(DuplicateName), crontabs)
            else
              Outcome(Ok(PeriodicTask(req.periodicTask, taskName, t.TaskPath(), taskArgs)), crontabs)
  }

  /** For a known customer with an id on the chosen service, a well-formed request
      with an unused name is accepted, and the task runs the service's
      update with the customer's id on that service. */
  lemma AcceptsWellFormed(st: Stores, id: nat, t: TaskType, cron: Crontab)
    requires id in st.customers
    requires t.ServiceId(st.customers[id]).Some?
    requires Cron.ValidCrontab(cron)
    requires TaskName(st.customers[id], t.Name()) !in st.taskNames
    ensures var out := ToInternalValue(st, ScheduleRequest(Some(id), t.Name(), cron));
      && out.result.Ok?
      && out.result.value.task == t.TaskPath()
      && out.result.value.args == [t.ServiceId(st.customers[id])]
      && out.crontabs == st.crontabs + {cron}
  {
  }

  /** A task type outside the two known kinds is refused and nothing is
      created, even when the cron fields are invalid too. */
  lemma UnknownTaskTypeCreatesNothing(st: Stores, id: nat, taskType: string, cron: Crontab)
    requires id in st.customers
    requires taskType != "watchman" && taskType != "repairshopr"
    ensures ToInternalValue(st, ScheduleRequest(Some(id), taskType, cron)) == Outcome(Err(BadTaskType), st.crontabs)
  {
  }

  /** A minute of 61 is refused under the cron key and no crontab is
      stored. */
  lemma Minute61Refused(st: Stores, id: nat, t: TaskType)
    requires id in st.customers
    requires t.ServiceId(st.customers[id]).Some?
    ensures var out := ToInternalValue(st, ScheduleRequest(Some(id), t.Name(), Crontab("61", "2", "*", "*", "*")));
      out.result == Err(CronInvalid) && out.result.error.Key() == Some("periodic_tas") && out.crontabs == st.crontabs
  {
  }
}

=== FILE: tasks.dfy ===
/** The earlier Watchman task module's pure parts: the number of computer
    pages to request and the concatenation of the returned pages. */
module Tasks {
  import opened Basics

  /** The part of a Watchman group record the page count needs. */
  datatype GroupInfo = GroupInfo(visibleComputerCount: nat)

  /** The number of computer pages to request. */
  function DetermineComputerRequestNum(group: GroupInfo, perPage: nat): (n: nat)
    requires perPage > 0
    ensures n * perPage >= group.visibleComputerCount
    ensures n == 0 || (n - 1) * perPage < group.visibleComputerCount
    ensures n == 0 <==> group.visibleComputerCount == 0
  {
    CeilDiv(group.visibleComputerCount, perPage)
  }

  /** Concatenates the pages of results in page order: the result is the
      reference concatenation `Flatten`. */
  method CombineWatchmanComputerResults<T>(pages: seq<seq<T>>) returns (r: seq<T>)
    ensures r == Flatten(pages)
    ensures |r| == TotalLength(pages)
  {
    r := ConcatPages(pages);
  }

  /** The page count is the exact ceiling: no smaller count covers all
      visible computers. */
  lemma {:induction false} RequestNumIsLeast(group: GroupInfo, perPage: nat, m: nat)
    requires perPage > 0
    requires m * perPage >= group.visibleComputerCount
    ensures DetermineComputerRequestNum(group, perPage) <= m
  {
    var n := DetermineComputerRequestNum(group, perPage);
    if m < n {
      MulMonotone(m, n - 1, perPage);
    }
  }
}

=== FILE: tasks_watchman.dfy ===
/** The Watchman update pipeline's pure parts: how many pages of computers
    to request, how the pages are combined, and how the combined plugin
    results are reconciled with the stored warnings. */
module TasksWatchman {
  import opened Basics
  import opened Models

  /** Computers requested per page by the update task. */
  const ResultsPerPage: nat := 100

  /** The part of a Watchman group record the page count needs. */
  datatype GroupInfo = GroupInfo(visibleComputerCount: nat)

  /** One plugin result of a computer. */
  datatype PluginResult = PluginResult(uid: string, status: string, name: string, details: string)

  /** One computer of a Watchman computers page, with its plugin results. */
  datatype ComputerResult = ComputerResult(group: string, uid: string, pluginResults: seq<PluginResult>)

  /** The number of computer pages to request: enough pages of `perPage`
      computers to cover every visible computer, and no more. */
  function DetermineComputerRequestNum(group: GroupInfo, perPage: nat): (n: nat)
    requires perPage > 0
    ensures n * perPage >= group.visibleComputerCount
    ensures n == 0 || (n - 1) * perPage < group.visibleComputerCount
    ensures group.visibleComputerCount == 0 ==> n == 0
  {
    CeilDiv(group.visibleComputerCount, perPage)
  }

  /** At the update task's 100 computers per page: no computers need no
      request, a full page one, one computer more a second, and 250 three. */
  lemma UpdateClientPageCounts()
    ensures DetermineComputerRequestNum(GroupInfo(0), ResultsPerPage) == 0
    ensures DetermineComputerRequestNum(GroupInfo(100), ResultsPerPage) == 1
    ensures DetermineComputerRequestNum(GroupInfo(101), ResultsPerPage) == 2
    ensures DetermineComputerRequestNum(GroupInfo(250), ResultsPerPage) == 3
  {
    CeilDivUnique(100, ResultsPerPage, 1);
    CeilDivUnique(101, ResultsPerPage, 2);
    CeilDivUnique(250, ResultsPerPage, 3);
  }

  /** Concatenates the computer pages, in page order. The result is the
      reference concatenation `Flatten`, in which each page sits whole right
      after the pages before it (`FlattenPart`). */
  method CombineComputerResults(pages: seq<seq<ComputerResult>>) returns (r: seq<ComputerResult>)
    ensures r == Flatten(pages)
    ensures |r| == TotalLength(pages)
  {
    r := ConcatPages(pages);
  }

  // ---------------------------------------------------------------------
  // Warning reconciliation

  /** Python's `str.upper` on ASCII letters. */
  function UpperChar(c: char): char {
    if 'a' <= c <= 'z' then (c as int - 32) as char else c
  }

  function Upper(s: string): (u: string)
    ensures |u| == |s|
    ensures forall i :: 0 <= i < |s| ==> u[i] == UpperChar(s[i])
  {
    if |s| == 0 then [] else [UpperChar(s[0])] + Upper(s[1..])
  }

  /** The identity of a warning: the customer's group, the computer and the
      plugin uid. */
  datatype WarningKey = WarningKey(group: string, computer: string, uid: string)

  function KeyOf(w: WatchmanWarning): WarningKey {
    WarningKey(w.watchmanGroupId, w.computerId, w.warningId)
  }

  /** `w` is an open warning for `key`. */
  predicate OpenFor(w: WatchmanWarning, key: WarningKey) {
    KeyOf(w) == key && w.IsOpen()
  }

  predicate HasOpen(store: seq<WatchmanWarning>, key: WarningKey) {
    exists i :: 0 <= i < |store| && OpenFor(store[i], key)
  }

  /** At most one open warning per key: the lookup of the open warning for
      a key finds a single row, as the program requires. */
  predicate AtMostOneOpen(store: seq<WatchmanWarning>) {
    forall i, j :: 0 <= i < |store| && 0 <= j < |store| && i != j && store[i].IsOpen() && store[j].IsOpen()
      ==> KeyOf(store[i]) != KeyOf(store[j])
  }

  /** The row index of the open warning for `key`, if there is one. */
  function FindOpen(store: seq<WatchmanWarning>, key: WarningKey): (r: Option<nat>)
    ensures r.Some? ==> r.value < |store| && OpenFor(store[r.value], key)
    ensures r.None? <==> !HasOpen(store, key)
  {
    if |store| == 0 then None
    else if OpenFor(store[|store| - 1], key) then Some(|store| - 1)
    else
      FindOpen(store[..|store| - 1], key)
  }

  /** The columns a reconciliation never changes. */
  predicate SameIdentity(a: WatchmanWarning, b: WatchmanWarning) {
    && KeyOf(a) == KeyOf(b)
    && a.dateReported == b.dateReported
    && a.name == b.name
    && a.details == b.details
  }

  /** How the store may change during one reconciliation at time `now`:
      no row is deleted, no row changes identity, resolved rows are left
      alone, every row that changed was checked now, every row resolved
      was resolved now, and every added row was reported now. */
  predicate Evolves(before: seq<WatchmanWarning>, after: seq<WatchmanWarning>, now: Date) {
    && |before| <= |after|
    && (forall i :: 0 <= i < |before| ==> SameIdentity(before[i], after[i]))
    && (forall i :: 0 <= i < |before| && !before[i].IsOpen() ==> after[i] == before[i])
    && (forall i :: 0 <= i < |before| && after[i] != before[i] ==> after[i].dateLastChecked == now)
    && (forall i :: |before| <= i < |after| ==> after[i].dateReported == now)
    && (forall i :: 0 <= i < |before| && before[i].IsOpen() && !after[i].IsOpen() ==> after[i].dateResolved == Some(now))
  }

  lemma EvolvesTransitive(a: seq<WatchmanWarning>, b: seq<WatchmanWarning>, c: seq<WatchmanWarning>, now: Date)
    requires Evolves(a, b, now) && Evolves(b, c, now)
    ensures Evolves(a, c, now)
  {
    forall i | 0 <= i < |a| && c[i] != a[i] ensures c[i].dateLastChecked == now {
      if b[i] == a[i] {
      } else if c[i] != b[i] {
      }
    }
    forall i | |a| <= i < |c| ensures c[i].dateReported == now {
      if i < |b| {
        assert SameIdentity(b[i], c[i]);
      }
    }
  }

  /** The open warning a WARNING status creates. */
  function NewWarning(key: WarningKey, plugin: PluginResult, now: Date): (w: WatchmanWarning)
    ensures OpenFor(w, key) && w.dateReported == now && w.dateLastChecked == now
  {
    WatchmanWarning(key.group, key.computer, key.uid, now, now, None, plugin.name, plugin.details)
  }

  /** Reconciles one plugin result of one computer with the store. An open
      warning for the key is resolved on OK and has its last-checked date
      refreshed in every case; with no open warning, a WARNING status opens
      one and any other status changes nothing. */
  function Step(store: seq<WatchmanWarning>, key: WarningKey, plugin: PluginResult, now: Date)
    : (r: seq<WatchmanWarning>)
    requires AtMostOneOpen(store)
    requires key.uid == plugin.uid
    ensures AtMostOneOpen(r)
    ensures Evolves(store, r, now)
    ensures Upper(plugin.status) == "OK" ==> !HasOpen(r, key)
    ensures Upper(plugin.status) == "WARNING" ==> HasOpen(r, key)
    ensures Upper(plugin.status) != "OK" ==> (HasOpen(r, key) <==> HasOpen(store, key) || Upper(plugin.status) == "WARNING")
    ensures forall k :: k != key ==> (HasOpen(r, k) <==> HasOpen(store, k))
    ensures |r| == if !HasOpen(store, key) && Upper(plugin.status) == "WARNING" then |store| + 1 else |store|
    ensures forall i :: 0 <= i < |store| && !OpenFor(store[i], key) ==> r[i] == store[i]
    ensures forall i :: 0 <= i < |store| && OpenFor(store[i], key) ==>
      r[i].dateLastChecked == now
      && (r[i].dateResolved == if Upper(plugin.status) == "OK" then Some(now) else None)
    ensures |r| > |store| ==> r[|store|] == NewWarning(key, plugin, now)
    ensures !HasOpen(store, key) && Upper(plugin.status) != "WARNING" ==> r == store
  {
    var status := Upper(plugin.status);
    match FindOpen(store, key)
    case Some(i) =>
      var w := store[i];
      var w' := w.(dateResolved := if status == "OK" then Some(now) else w.dateResolved, dateLastChecked := now);
      var r := store[i := w'];
      assert forall j :: 0 <= j < |store| && j != i ==> !OpenFor(store[j], key);
      assert !HasOpen(r, key) <== status == "OK";
      assert HasOpen(r, key) <== status != "OK" by {
        if status != "OK" {
          assert OpenFor(r[i], key);
        }
      }
      forall k | k != key ensures HasOpen(r, k) <==> HasOpen(store, k) {
        if HasOpen(store, k) {
          var j :| 0 <= j < |store| && OpenFor(store[j], k);
          assert OpenFor(r[j], k);
        }
      }
      r
    case None =>
      if status == "WARNING" then
        var r := store + [NewWarning(key, plugin, now)];
        assert OpenFor(r[|store|], key);
        forall k | k != key ensures HasOpen(r, k) <==> HasOpen(store, k) {
          if HasOpen(r, k) {
            var j :| 0 <= j < |r| && OpenFor(r[j], k);
            assert j < |store|;
          }
          if HasOpen(store, k) {
            var j :| 0 <= j < |store| && OpenFor(store[j], k);
            assert OpenFor(r[j], k);
          }
        }
        r
      else
        store
  }

  /** Why a reconciliation step as written stops. */
  datatype StepFailure =
    /** The new warning's computer column is a foreign key to a computer
        record, and the program assigns it the computer's uid string; the
        model layer refuses any value that is not a computer record. */
    | ComputerNotARecord

  /** One reconciliation step as the program writes it: it agrees with
      `Step` except that creating a warning fails, because the computer
      column is given the uid string rather than a computer record. */
  function StepAsWritten(store: seq<WatchmanWarning>, key: WarningKey, plugin: PluginResult, now: Date)
    : (r: Result<seq<WatchmanWarning>, StepFailure>)
    requires AtMostOneOpen(store)
    requires key.uid == plugin.uid
    ensures r.Err? <==> !HasOpen(store, key) && Upper(plugin.status) == "WARNING"
    ensures r.Ok? ==> r.value == Step(store, key, plugin, now)
    ensures r.Ok? ==> |r.value| == |store|
  {
    if FindOpen(store, key).None? && Upper(plugin.status) == "WARNING" then Err(ComputerNotARecord)
    else Ok(Step(store, key, plugin, now))
  }

  /** As written, no warning is ever created: a WARNING for a key with no
      open warning fails, where the intended `Step` opens one. On an empty
      store the first WARNING already shows it. */
  lemma AsWrittenNeverCreates(store: seq<WatchmanWarning>, key: WarningKey, plugin: PluginResult, now: Date)
    requires AtMostOneOpen(store) && key.uid == plugin.uid
    ensures StepAsWritten(store, key, plugin, now).Ok? ==> |StepAsWritten(store, key, plugin, now).value| == |store|
    ensures !HasOpen(store, key) && Upper(plugin.status) == "WARNING" ==>
      && StepAsWritten(store, key, plugin, now) == Err(ComputerNotARecord)
      && HasOpen(Step(store, key, plugin, now), key)
    ensures StepAsWritten([], WarningKey("g", "c", "p"), PluginResult("p", "warning", "n", "d"), now) == Err(ComputerNotARecord)
  {
    assert Upper("warning") == "WARNING";
  }

  /** Reconciles every plugin result of one computer, in order. */
  function ParsePlugins(store: seq<WatchmanWarning>, group: string, computer: string,
                        plugins: seq<PluginResult>, now: Date): (r: seq<WatchmanWarning>)
    requires AtMostOneOpen(store)
    ensures AtMostOneOpen(r)
    ensures Evolves(store, r, now)
    ensures |r| <= |store| + |plugins|
    decreases |plugins|
  {
    if |plugins| == 0 then store
    else
      var s1 := Step(store, WarningKey(group, computer, plugins[0].uid), plugins[0], now);
      var r := ParsePlugins(s1, group, computer, plugins[1..], now);
      EvolvesTransitive(store, s1, r, now);
      r
  }

  /** Every computer's group belongs to a customer; the program looks the
      customer up by group and fails when there is none. */
  predicate GroupsKnown(customers: map<nat, Customer>, computers: seq<ComputerResult>) {
    forall i :: 0 <= i < |computers| ==>
      exists id :: id in customers && customers[id].watchmanGroupId == Some(computers[i].group)
  }

  /** Reconciles all plugin results of all computers with the store of
      warnings, at time `now`. */
  function ParseWarnings(customers: map<nat, Customer>, store: seq<WatchmanWarning>,
                         computers: seq<ComputerResult>, now: Date): (r: seq<WatchmanWarning>)
    requires GroupsKnown(customers, computers)
    requires AtMostOneOpen(store)
    ensures AtMostOneOpen(r)
    ensures Evolves(store, r, now)
    decreases |computers|
  {
    if |computers| == 0 then store
    else
      var c := computers[0];
      var s1 := ParsePlugins(store, c.group, c.uid, c.pluginResults, now);
      assert GroupsKnown(customers, computers[1..]) by {
        forall i | 0 <= i < |computers[1..]|
          ensures exists id :: id in customers && customers[id].watchmanGroupId == Some(computers[1..][i].group)
        {
          assert computers[1..][i] == computers[i + 1];
        }
      }
      var r := ParseWarnings(customers, s1, computers[1..], now);
      EvolvesTransitive(store, s1, r, now);
      r
  }

  // ---------------------------------------------------------------------
  // Properties of the reconciliation

  /** The rows of `key` are left alone from `before` to `after`: its open
      warning is there in both or in neither, its rows are unchanged and no
      row for it was added. */
  predicate Untouched(before: seq<WatchmanWarning>, after: seq<WatchmanWarning>, key: WarningKey) {
    && |before| <= |after|
    && (HasOpen(after, key) <==> HasOpen(before, key))
    && (forall i :: 0 <= i < |before| && KeyOf(before[i]) == key ==> after[i] == before[i])
    && (forall i :: |before| <= i < |after| ==> KeyOf(after[i]) != key)
  }

  lemma UntouchedTransitive(a: seq<WatchmanWarning>, b: seq<WatchmanWarning>, c: seq<WatchmanWarning>,
                            key: WarningKey, now: Date)
    requires Untouched(a, b, key) && Untouched(b, c, key) && Evolves(b, c, now)
    ensures Untouched(a, c, key)
  {
    forall i | |a| <= i < |c| ensures KeyOf(c[i]) != key {
      if i < |b| {
        assert SameIdentity(b[i], c[i]);
      }
    }
  }

  /** A step for one key leaves every other key alone. */
  lemma StepUntouched(store: seq<WatchmanWarning>, key: WarningKey, plugin: PluginResult, now: Date, k: WarningKey)
    requires AtMostOneOpen(store) && key.uid == plugin.uid && k != key
    ensures Untouched(store, Step(store, key, plugin, now), k)
  {
    var r := Step(store, key, plugin, now);
    forall i | |store| <= i < |r| ensures KeyOf(r[i]) != k {
      assert r[i] == NewWarning(key, plugin, now);
    }
  }

  /** The last plugin result with uid `uid`, if any. */
  function LastWith(plugins: seq<PluginResult>, uid: string): (p: Option<PluginResult>)
    ensures p.None? <==> forall i :: 0 <= i < |plugins| ==> plugins[i].uid != uid
    ensures p.Some? ==> exists i :: (
      && 0 <= i < |plugins| && plugins[i] == p.value && p.value.uid == uid
      && forall j :: i < j < |plugins| ==> plugins[j].uid != uid)
  {
    if |plugins| == 0 then None
    else match LastWith(plugins[1..], uid)
      case Some(p) =>
        var i :| 0 <= i < |plugins[1..]| && plugins[1..][i] == p && p.uid == uid
          && forall j :: i < j < |plugins[1..]| ==> plugins[1..][j].uid != uid;
        assert plugins[i + 1] == p;
        Some(p)
      case None =>
        if plugins[0].uid == uid then Some(plugins[0]) else None
  }

  /** The last result a computer's batch reports for `key`: none when the
      batch belongs to another group or computer. */
  function LastFor(group: string, computer: string, plugins: seq<PluginResult>, key: WarningKey): Option<PluginResult> {
    if group == key.group && computer == key.computer then LastWith(plugins, key.uid) else None
  }

  /** What one computer's batch does to a key: the key is left alone when
      the batch does not report it; otherwise the last result reported for
      it decides, OK leaving no open warning and WARNING leaving one. */
  lemma {:induction false} ParsePluginsOutcome(store: seq<WatchmanWarning>, group: string, computer: string,
                                               plugins: seq<PluginResult>, now: Date, key: WarningKey)
    requires AtMostOneOpen(store)
    ensures var r := ParsePlugins(store, group, computer, plugins, now);
      var last := LastFor(group, computer, plugins, key);
      && (last.None? ==> Untouched(store, r, key))
      && (last.Some? && Upper(last.value.status) == "OK" ==> !HasOpen(r, key))
      && (last.Some? && Upper(last.value.status) == "WARNING" ==> HasOpen(r, key))
    decreases |plugins|
  {
    if |plugins| > 0 {
      var key0 := WarningKey(group, computer, plugins[0].uid);
      var s1 := Step(store, key0, plugins[0], now);
      var r := ParsePlugins(s1, group, computer, plugins[1..], now);
      assert r == ParsePlugins(store, group, computer, plugins, now);
      ParsePluginsOutcome(s1, group, computer, plugins[1..], now, key);
      if LastFor(group, computer, plugins[1..], key).None? {
        if key0 == key {
          assert LastFor(group, computer, plugins, key) == Some(plugins[0]);
        } else {
          StepUntouched(store, key0, plugins[0], now, key);
          UntouchedTransitive(store, s1, r, key, now);
        }
      }
    }
  }

  /** The last result the whole run reports for `key`, over all computers. */
  function LastInRun(computers: seq<ComputerResult>, key: WarningKey): Option<PluginResult> {
    if |computers| == 0 then None
    else match LastInRun(computers[1..], key)
      case Some(p) => Some(p)
      case None => LastFor(computers[0].group, computers[0].uid, computers[0].pluginResults, key)
  }

  /** The same over the whole run: a key no computer reports is left alone;
      otherwise the last result reported for it decides whether an open
      warning remains. */
  lemma {:induction false} ParseWarningsOutcome(customers: map<nat, Customer>, store: seq<WatchmanWarning>,
                                                computers: seq<ComputerResult>, now: Date, key: WarningKey)
    requires GroupsKnown(customers, computers)
    requires AtMostOneOpen(store)
    ensures var r := ParseWarnings(customers, store, computers, now);
      var last := LastInRun(computers, key);
      && (last.None? ==> Untouched(store, r, key))
      && (last.Some? && Upper(last.value.status) == "OK" ==> !HasOpen(r, key))
      && (last.Some? && Upper(last.value.status) == "WARNING" ==> HasOpen(r, key))
    decreases |computers|
  {
    if |computers| > 0 {
      var c := computers[0];
      var s1 := ParsePlugins(store, c.group, c.uid, c.pluginResults, now);
      assert GroupsKnown(customers, computers[1..]) by {
        forall i | 0 <= i < |computers[1..]|
          ensures exists id :: id in customers && customers[id].watchmanGroupId == Some(computers[1..][i].group)
        {
          assert computers[1..][i] == computers[i + 1];
        }
      }
      var r := ParseWarnings(customers, s1, computers[1..], now);
      assert r == ParseWarnings(customers, store, computers, now);
      ParsePluginsOutcome(store, c.group, c.uid, c.pluginResults, now, key);
      ParseWarningsOutcome(customers, s1, computers[1..], now, key);
      if LastInRun(computers[1..], key).None? && LastFor(c.group, c.uid, c.pluginResults, key).None? {
        UntouchedTransitive(store, s1, r, key, now);
      }
    }
  }

  /** Statuses are compared without regard to case: two statuses that
      upper-case alike reconcile alike. */
  lemma StatusCaseInsensitive(store: seq<WatchmanWarning>, key: WarningKey, p: PluginResult, status: string, now: Date)
    requires AtMostOneOpen(store) && key.uid == p.uid
    requires Upper(status) == Upper(p.status)
    ensures Step(store, key, p.(status := status), now) == Step(store, key, p, now)
  {
  }

  /** `ok` is read as `OK` and `warning` as `WARNING`. */
  lemma LowerCaseStatuses()
    ensures Upper("ok") == "OK"
    ensures Upper("warning") == "WARNING"
  {
  }

  /** Reporting the same plugin result twice in a row creates at most one
      warning: the second report only refreshes or does nothing. */
  lemma {:induction false} RepeatCreatesNothing(store: seq<WatchmanWarning>, key: WarningKey, p: PluginResult, now: Date)
    requires AtMostOneOpen(store) && key.uid == p.uid
    ensures var s1 := Step(store, key, p, now);
      |Step(s1, key, p, now)| == |s1|
  {
    var s1 := Step(store, key, p, now);
    if Upper(p.status) == "WARNING" {
      assert HasOpen(s1, key);
    }
  }

  /** A warning that is already resolved is never touched again, by any
      sequence of plugin results. */
  lemma ResolvedWarningsFrozen(customers: map<nat, Customer>, store: seq<WatchmanWarning>,
                               computers: seq<ComputerResult>, now: Date, i: nat)
    requires GroupsKnown(customers, computers) && AtMostOneOpen(store)
    requires i < |store| && !store[i].IsOpen()
    ensures var r := ParseWarnings(customers, store, computers, now);
      i < |r| && r[i] == store[i]
  {
  }
}
